=== FILE: README.md ===
# Transaction view of the insight-api controller, in Dafny

This project models the pure core of the transaction controller of
insight-api (`lib/transactions.js`): how a detailed transaction from the
chain index becomes the canonical API view (`transformTransaction`,
`transformInput`, `transformOutput`), which outputs are enriched with
colored-asset metadata and under which address, how the compact inventory
view is built (`transformInvTransaction`), how the asset service's UTXO
listing is flattened (`extractAssets`) and keyed (`assetUtxoId`), and how
`list` pages a block's transactions or de-duplicates an address history.

Everything is an immutable value and every operation a total function of
its inputs. The controller's collaborators are parameters: the chain
height, the clock, the address classifier, the 8-decimal BTC formatter and
the asset lookup travel in `Records.Collaborators`; the block overview,
address history, transaction fetch and script-to-address decoder are
function parameters of the operations that use them.

Modules, one per file:

- `wrappers.dfy` — `Option` and `Result`.
- `js_values.dfy` — the JavaScript semantics the controller relies on:
  truthiness of optional strings, `String(n)` below 10^21, `parseInt` without a radix,
  `Array.prototype.slice`.
- `records.dfy` — raw records, asset records and the transformed shapes.
- `enrichment.dfy` — the marker-output rule choosing the lookups.
- `transform.dfy` — the transformer (`Transform`) and the properties that
  tie its parts together (`TransformProperties`).
- `inv_transaction.dfy` — the inventory view.
- `assets.dfy` — flattening of address-info replies and metadata keys.
- `listing.dfy` — page arithmetic, history de-duplication and both
  listing modes.

Behaviours of `lib/transactions.js` worth noting:

- `blocktime` is present when `confirmations` is non-zero (the code tests
  its truthiness), not only when it is positive: a chain height below the
  transaction's height gives a negative count and still a `blocktime`.
- A failed asset lookup does not fail the transform: the final callback of
  the output map ignores its error, and the output's `metadata` is `null`.
  An address holding no assets is not a failure: its lookup yields an empty
  list, and `metadata` is that empty list.
- When both a block hash and an address are given, block mode wins.
- In block mode a transaction the chain index does not find (code -5)
  fails the listing; only an unknown block gives the not-found answer.

## Model

| member | source | states |
|---|---|---|
| Transform.TransformTransaction | lib/transactions.js:48-124 | Fails only for a coinbase transaction with no inputs. Otherwise: a coinbase `vin` is the single entry built from input 0's script and sequence with `n` 0; a non-coinbase `vin` has one entry per input, and entry i is input i transformed by `TransformInput` at index i; `vout` has one entry per output with `n` equal to its index; confirmations are chain height minus height plus one for a mined transaction and 0 otherwise; `time` is the truthy block timestamp or the clock rounded to seconds; `blocktime` is present, equal to `time`, exactly when confirmations are non-zero; `isCoinBase` is present (true) only for coinbase; `valueIn` and `fees` are present only for non-coinbase and equal the precomputed satoshis in BTC; `valueOut` is the output satoshis in BTC; `size` is half the hex length |
| Transform.TransformInput | lib/transactions.js:126-153 | An input entry carries the input's previous txid as `txid`, its output index as `vout`, its sequence number, its address as `addr`, the input's index as `n`, and its satoshis both as `valueSat` and, divided by 10^8, as `value`; `scriptSig` is absent exactly under `noScriptSig`, holds the input script, and holds the input's assembly exactly when `noAsm` is off; `doubleSpentTxID` is always `null` |
| Transform.TransformOutput | lib/transactions.js:155-181 | An output entry carries its index as `n`, the formatted BTC amount as `value` and the output script as `hex`; `addresses` is `[address]` and `type` is the classifier's type of that address, both present exactly when the output has a non-empty address; `asm` is the output's assembly when `noAsm` is off and absent when it is on; the spend fields are absent exactly under `noSpent`, and otherwise a falsy spent txid or height is `null`, a missing spent index is `null`, and a truthy spent txid, a spent index and a non-zero spent height are carried over; no `metadata` before enrichment |
| Transform.Btc | lib/transactions.js:115-119 | The BTC amount times 10^8 gives back the satoshi amount |
| Transform.UnixSeconds | lib/transactions.js:105 | The clock in milliseconds is within half a second of the returned whole second |
| TransformProperties.VoutFields | lib/transactions.js:155-181 | In each output entry of the transformed transaction, `scriptPubKey.addresses` is `[address]` and `type` is the classifier's type of that address, both present exactly when the output has a non-empty address; `asm` is the output's assembly when `noAsm` is off and absent when it is on; the spend fields are absent exactly under `noSpent`, and otherwise a falsy spent txid or height is `null`, a missing spent index is `null`, and a truthy spent txid, a spent index and a non-zero spent height are carried over |
| TransformProperties.EnrichmentOfVout | lib/transactions.js:85-97 | An output of the transformed transaction has a `metadata` field exactly when it has no address, is not the first output, and the output before it has an address; the field then holds the lookup result for that preceding address |
| TransformProperties.FlagsStripOnlyTheirFields | lib/transactions.js:126-172 | Transforming with any flags equals transforming with none and removing exactly the flagged fields: `noScriptSig` drops `scriptSig`, `noAsm` drops both `asm` fields, `noSpent` drops the spend fields; every other field, and the number and order of entries, is unchanged |
| TransformProperties.CollectVout | lib/transactions.js:81-100 | Whatever order the per-output results complete in, storing each at its own index yields the same `vout` as the index-by-index map |
| Enrichment.LookupKey | lib/transactions.js:87-89 | A lookup is made for output i exactly when i > 0, output i has no address and output i-1 has one; the key is output i-1's non-empty address |
| Enrichment.Metadata | lib/transactions.js:90-94 | The `metadata` field is absent when no lookup is made and otherwise is what the lookup returns for the preceding output's address |
| Enrichment.NoAdjacentLookups | lib/transactions.js:87-89 | Two neighbouring outputs are never both looked up |
| Enrichment.LookupsBoundedByAddresses | lib/transactions.js:85-97 | A transform makes no more asset lookups than there are address-bearing outputs |
| InvTransaction.TransformInvTransaction | lib/transactions.js:183-213 | `valueOut` is the outputs' satoshi total in BTC; `vout` lists, in output order, an address and amount for exactly the outputs whose script decodes to an address; `isRBF` holds exactly when some input's sequence number is below 2^32 - 2 |
| InvTransaction.AddressedOutputsMembership | lib/transactions.js:188-198 | An address/amount pair is in `vout` exactly when some output pays that amount to that address |
| InvTransaction.AddressedOutputsLength | lib/transactions.js:188-198 | `vout` never has more entries than the transaction has outputs |
| Assets.ExtractAssets | lib/transactions.js:393-406 | A reply without UTXOs yields no assets; otherwise the result is the UTXOs' asset lists concatenated in order, each entry carrying its UTXO's txid, index, value and script |
| Assets.FlattenLength | lib/transactions.js:397-403 | The flattened list has exactly as many entries as the UTXOs' asset lists together |
| Assets.FlattenMembership | lib/transactions.js:397-403 | An asset is in the flattened list exactly when some UTXO of the reply lists it |
| Assets.AssetUtxoId | lib/transactions.js:388-390 | Cutting the key at its last `:` leaves the asset id and txid joined by `/` before it and the decimal index after it; for an asset id without `/`, cutting at the first `/` leaves the asset id before it |
| Assets.AssetUtxoIdRoundTrip | lib/transactions.js:388-390 | For an asset id without `/`, the key `assetId/txid:index` parses back into that asset id, txid and index |
| Assets.AssetUtxoIdInjective | lib/transactions.js:388-390 | For asset ids without `/`, two held assets share a key exactly when they agree on asset id, txid and index |
| JsValues.ParseInt | lib/transactions.js:245 | Empty text is `NaN`; a leading white-space character does not change the result; a negative result comes only from text whose first non-space character is `-`, and a positive one only from text where it is not |
| Listing.PageNumber | lib/transactions.js:245 | A missing page number is page 0; a page number made of decimal digits is the number they denote; a minus sign followed by decimal digits is that number negated; text starting with neither white space, a sign nor a digit is page 0 |
| Listing.PageNumberOfDecimal | lib/transactions.js:245 | A page number written in decimal is read back as that number |
| Listing.PageNumberOfNegativeDecimal | lib/transactions.js:245 | A page number written as a minus sign and decimal digits is read back as that negative number |
| Listing.PageNumberDefault | lib/transactions.js:245 | A missing page number, or one that starts with neither white space, a sign nor a digit, is page 0 |
| Listing.PagesTotal | lib/transactions.js:263 | The page count is the least number of 10-entry pages that hold all entries |
| Listing.BlockPage | lib/transactions.js:260-262 | A block page has at most 10 entries and no more than the block's list, and they are consecutive entries of that list starting at the resolved index page*10 |
| Listing.BlockPageWindow | lib/transactions.js:260-262 | For a page p of 0 or more, the block page is the list's entries from p*10 to p*10+10, clamped to the list's end |
| Listing.BlockPageOfNegative | lib/transactions.js:260-262 | A negative page counts back from the end of the block's list, as `slice` does: page -1 is empty, and page -k for k of 2 or more is the 10-entry window ending (k-1)*10 entries before the end, clipped at the start |
| Listing.BlockPagesCoverList | lib/transactions.js:257-263 | Every entry i of a block's list is entry i mod 10 of page i div 10, and that page is below the page count |
| Listing.BlockPagesPastTheEnd | lib/transactions.js:257-263 | Every page from the page count on is empty |
| Listing.AddressWindow | lib/transactions.js:288-291 | The history window of page p starts at entry p*10 and spans exactly 10 entries |
| Listing.AddressWindowIsBlockPage | lib/transactions.js:257-291 | For a page of 0 or more, the address-mode window names the same index range, clamped to the list's end, that block mode slices out of a block's list |
| Listing.AddressWindowsTile | lib/transactions.js:288-291 | The window of page p ends where the window of page p+1 starts |
| Listing.IndexOf | lib/transactions.js:301 | The result is the first position holding the value, or -1 when the value does not occur |
| Listing.Dedup | lib/transactions.js:298-302 | Every history transaction appears in the de-duplicated history and every entry of it comes from the history, with no transaction twice |
| Listing.DedupProperties | lib/transactions.js:298-302 | The de-duplicated history contains exactly the history's transactions, each once, ordered by their first occurrence |
| Listing.DedupOfDistinct | lib/transactions.js:298-302 | For a history without duplicates, keeping the first occurrences among its first k entries returns those k entries unchanged, so the whole history passes through the de-duplication as it is |
| Listing.DedupIdempotent | lib/transactions.js:298-302 | De-duplicating twice gives the same as de-duplicating once |
| Listing.MapSeries | lib/transactions.js:268-275 | On success there is one result per element, each the element's own result; on failure the error is that of an element all of whose predecessors succeeded |
| Listing.ListByBlock | lib/transactions.js:249-286 | An unknown block (code -5) gives the not-found answer and any other overview error fails with that error; the answer is a page exactly when the overview succeeds and every txid of the requested slice is fetched and transformed, and then it has the page count of the whole block and those transactions in order; otherwise it fails with the error of the first txid that failed |
| Listing.ListByAddress | lib/transactions.js:287-319 | Never a not-found answer; a history error fails with that error; the answer is a page exactly when the history of the page's window succeeds and every de-duplicated entry transforms, and then it has the page count of the history's total and those transactions in order; otherwise it fails with the error of a de-duplicated entry whose predecessors all transformed |
| Listing.List | lib/transactions.js:240-323 | The request fails for want of a selector exactly when neither a block hash nor an address is truthy; a truthy block hash selects block mode, otherwise a truthy address selects address mode, both with the parsed page number |
| JsValues.NatToStringValue | lib/transactions.js:389 | The decimal rendering of a UTXO index is a string of digits that denotes that index |
| JsValues.Slice | lib/transactions.js:262 | The slice holds exactly the entries from the resolved start up to the resolved end, where a negative bound counts from the end of the list and bounds are clamped to it: for 0 <= start <= end its length is min(end, length) minus min(start, length) and entry i is the list's entry start+i; a negative start with an end at or past the list's end gives the last -start entries; an end not past the start gives nothing |

## Left out

- The HTTP handlers `show`, `showRaw`, `transaction`, `rawTransaction` and `send`: request routing and response writing only. `Common.handleErrors` is not part of this model; its answers are named `NotFound` and `Failed`.
- The asset-service client `getAssetByAddress` and `getMeta`: remote HTTP requests and JSON parsing. The lookup is the abstract function `Collaborators.lookupAssets`, whose `None` stands for a failed lookup (`metadata || null` gives `null`); an address without assets gives `Some([])`, as the empty array is truthy.
- Error propagation from enrichment: when a lookup fails, `async.map` finishes early and the final callback ignores the error; which other outputs are then complete is not modelled.
- `async.map` and `async.mapSeries`: modelled as a map by index (`TransformVout`, with `CollectVout` showing independence from completion order) and a sequential map stopping at the first failure (`MapSeries`).
- Floating point: BTC amounts are exact rationals (`satoshis / 10^8`) rather than IEEE doubles; the 8-decimal rendering of `toFixed(8)` is the formatter `Collaborators.formatBtc`; the sum in `transformInvTransaction` is exact, not a double sum; `parseInt` results beyond 2^53 are exact integers here.
- Foreign calls: the address classifier (`bitcore.Address(...).type`) is `Collaborators.addressType`, the script decoder (`script.toAddress(network)`) is the `toAddress` parameter, the clock (`Date.now()`) is `Collaborators.nowMillis`.
- `extractAssets` tests `utxo.assets || utxo.assets.length > 0`, which throws on a UTXO without an asset list; the model gives every UTXO an asset list, possibly empty.
- Assets.AssetUtxoId: the index is rendered as its plain decimal digits; JavaScript's `String(n)` switches to exponent form from 10^21, which no UTXO index reaches, so that form is not modelled.
- The `metadataOfIssuence` field read by `getMeta` is not modelled.
- A coinbase transaction without inputs makes the source throw a TypeError; the model returns `Failure(CoinbaseWithoutInputs)` instead. The transform never reports an error through its callback, so this throw is its only failure, and it happens synchronously in list order in both listing modes (`async.map` and `async.mapSeries` start their iterators in order), escaping the chain-index callback so that no answer is sent.
- Listing.ListByBlock, Listing.ListByAddress: where the source throws on the first transaction in list order that cannot be transformed and sends no answer, the model answers `Failed(Tx(TxNotTransformed))` for that same first transaction.
- The block-mode branch that takes the whole block when the page number is undefined cannot run, because the page number is always a number; it is not modelled.
- Identity of address-history items: `indexOf` compares objects by reference; the model compares values of a type with equality.

=== FILE: assets.dfy ===
/** The pure parts of the asset-service client: flattening the UTXO listing
    of an address into the assets it holds, and the key under which the
    issuance metadata of one held asset is requested. */
module Assets {
  import opened Wrappers
  import opened JsValues
  import opened Records

  // ---------------------------------------------------------------------------
  // Flattening an address-info reply
  // ---------------------------------------------------------------------------

  /** The UTXO fields kept next to each asset it holds. */
  function RefOf(utxo: Utxo): UtxoRef {
    UtxoRef(utxo.txid, utxo.index, utxo.value, utxo.scriptPubKey)
  }

  /** The assets held by one UTXO, in listing order. */
  function HeldBy(utxo: Utxo): (held: seq<HeldAsset>)
    ensures |held| == |utxo.assets|
  {
    seq(|utxo.assets|, k requires 0 <= k < |utxo.assets| =>
      HeldAsset(utxo.assets[k].assetId, utxo.assets[k].amount, RefOf(utxo)))
  }

  /** Reference definition: the held assets of every UTXO, UTXO by UTXO. */
  function Flatten(utxos: seq<Utxo>): seq<HeldAsset>
    decreases |utxos|
  {
    if |utxos| == 0 then [] else Flatten(utxos[..|utxos| - 1]) + HeldBy(utxos[|utxos| - 1])
  }

  /** Total number of asset entries across the UTXOs. */
  function AssetCount(utxos: seq<Utxo>): nat
    decreases |utxos|
  {
    if |utxos| == 0 then 0 else AssetCount(utxos[..|utxos| - 1]) + |utxos[|utxos| - 1].assets|
  }

  /** Walks the UTXOs and their asset lists, appending one held asset per
      entry; a reply with no `utxos` (or an empty list) yields no assets. */
  method ExtractAssets(body: AddressInfo) returns (assets: seq<HeldAsset>)
    ensures body.utxos.None? ==> assets == []
    ensures body.utxos.Some? ==> assets == Flatten(body.utxos.value)
  {
    assets := [];
    if body.utxos.None? || |body.utxos.value| == 0 {
      return;
    }
    var utxos := body.utxos.value;
    var j := 0;
    while j < |utxos|
      invariant 0 <= j <= |utxos|
      invariant assets == Flatten(utxos[..j])
    {
      var utxo := utxos[j];
      var k := 0;
      while k < |utxo.assets|
        invariant 0 <= k <= |utxo.assets|
        invariant assets == Flatten(utxos[..j]) + HeldBy(utxo)[..k]
      {
        var entry := utxo.assets[k];
        assets := assets + [HeldAsset(entry.assetId, entry.amount, RefOf(utxo))];
        k := k + 1;
      }
      assert utxos[..j + 1][..j] == utxos[..j];
      j := j + 1;
    }
    assert utxos[..j] == utxos;
  }

  /** The flattened listing has one entry per asset entry of the reply. */
  lemma {:induction false} FlattenLength(utxos: seq<Utxo>)
    ensures |Flatten(utxos)| == AssetCount(utxos)
    decreases |utxos|
  {
    if |utxos| > 0 {
      FlattenLength(utxos[..|utxos| - 1]);
    }
  }

  /** Some UTXO of the reply lists `h`'s asset id and amount, and `h` keeps
      that UTXO's fields. */
  ghost predicate ListedIn(utxos: seq<Utxo>, h: HeldAsset) {
    exists j, k :: 0 <= j < |utxos| && 0 <= k < |utxos[j].assets| && h == HeldBy(utxos[j])[k]
  }

  /** A held asset is in the flattened listing exactly when the reply lists it. */
  lemma {:induction false} FlattenMembership(utxos: seq<Utxo>, h: HeldAsset)
    ensures h in Flatten(utxos) <==> ListedIn(utxos, h)
    decreases |utxos|
  {
    if |utxos| > 0 {
      var init := utxos[..|utxos| - 1];
      var last := utxos[|utxos| - 1];
      FlattenMembership(init, h);
      assert h in Flatten(utxos) <==> h in Flatten(init) || h in HeldBy(last);
      if h in HeldBy(last) {
        var k :| 0 <= k < |last.assets| && HeldBy(last)[k] == h;
        assert HeldBy(utxos[|utxos| - 1])[k] == h;
      }
      if h in Flatten(init) {
        var j, k :| 0 <= j < |init| && 0 <= k < |init[j].assets| && h == HeldBy(init[j])[k];
        assert utxos[j] == init[j];
      }
      if ListedIn(utxos, h) {
        var j, k :| 0 <= j < |utxos| && 0 <= k < |utxos[j].assets| && h == HeldBy(utxos[j])[k];
        if j < |utxos| - 1 {
          assert utxos[j] == init[j];
        } else {
          assert HeldBy(last)[k] == h;
        }
      }
    }
  }

  // ---------------------------------------------------------------------------
  // The metadata key of a held asset
  // ---------------------------------------------------------------------------

  /** `assetId/txid:index`, the path under which issuance metadata is fetched.
      Cutting the key at its last `:` leaves the decimal index, and, for an
      asset id without `/`, cutting it at its first `/` leaves the asset id. */
  function AssetUtxoId(asset: HeldAsset): (key: string)
    ensures SplitAtLast(key, ':') == Some((asset.assetId + "/" + asset.utxo.txid, NatToString(asset.utxo.index)))
    ensures '/' !in asset.assetId ==>
      SplitAtFirst(key, '/') == Some((asset.assetId, asset.utxo.txid + ":" + NatToString(asset.utxo.index)))
  {
    var a, t, d := asset.assetId, asset.utxo.txid, NatToString(asset.utxo.index);
    var key := a + "/" + t + ":" + d;
    DecimalHasNoColon(asset.utxo.index);
    SplitAtLastOf(a + "/" + t, ':', d);
    if '/' in a then key
    else
      assert key == a + ['/'] + (t + [':'] + d);
      SplitAtFirstOf(a, '/', t + [':'] + d);
      key
  }

  /** The three parts a metadata key names. */
  datatype UtxoKey = UtxoKey(assetId: string, txid: string, index: nat)

  /** Position of the first `c` in `s`, or `|s|` when there is none. */
  function FirstIndexOf(s: string, c: char): (k: nat)
    ensures k <= |s|
    ensures k < |s| ==> s[k] == c
    ensures forall i :: 0 <= i < k ==> s[i] != c
  {
    if |s| == 0 then 0
    else if s[0] == c then 0
    else 1 + FirstIndexOf(s[1..], c)
  }

  /** Position of the last `c` in `s`, or -1 when there is none. */
  function LastIndexOf(s: string, c: char): (k: int)
    ensures -1 <= k < |s|
    ensures k >= 0 ==> s[k] == c
    ensures forall i :: k < i < |s| ==> s[i] != c
    decreases |s|
  {
    if |s| == 0 then -1
    else if s[|s| - 1] == c then |s| - 1
    else LastIndexOf(s[..|s| - 1], c)
  }

  /** `s` cut around its first `c`, when it has one. */
  function SplitAtFirst(s: string, c: char): Option<(string, string)> {
    var k := FirstIndexOf(s, c);
    if k == |s| then None else Some((s[..k], s[k + 1..]))
  }

  /** `s` cut around its last `c`, when it has one. */
  function SplitAtLast(s: string, c: char): Option<(string, string)> {
    var k := LastIndexOf(s, c);
    if k < 0 then None else Some((s[..k], s[k + 1..]))
  }

  /** A non-empty run of decimal digits, read as a number. */
  function ParseIndex(digits: string): Option<nat> {
    if |digits| == 0 || !AllDigits(digits, 10) then None else Some(DigitsValue(digits, 10))
  }

  /** Reads a metadata key back: the asset id runs to the first `/`, the
      index is the decimal number after the last `:`. */
  function ParseAssetUtxoId(s: string): Option<UtxoKey> {
    match SplitAtFirst(s, '/')
    case None => None
    case Some((assetId, rest)) =>
      match SplitAtLast(rest, ':')
      case None => None
      case Some((txid, digits)) =>
        match ParseIndex(digits)
        case None => None
        case Some(index) => Some(UtxoKey(assetId, txid, index))
  }

  lemma SplitAtFirstOf(a: string, c: char, tail: string)
    requires c !in a
    ensures SplitAtFirst(a + [c] + tail, c) == Some((a, tail))
  {
    var s := a + [c] + tail;
    assert s[|a|] == c;
    assert forall i :: 0 <= i < |a| ==> s[i] == a[i];
    assert s[..|a|] == a;
    assert s[|a| + 1..] == tail;
  }

  lemma {:induction false} LastIndexOfBefore(t: string, c: char, d: string)
    requires c !in d
    ensures LastIndexOf(t + [c] + d, c) == |t|
    decreases |d|
  {
    var s := t + [c] + d;
    if |d| == 0 {
      assert s[|s| - 1] == c;
    } else {
      var d' := d[..|d| - 1];
      assert s[|s| - 1] == d[|d| - 1] != c;
      assert s[..|s| - 1] == t + [c] + d';
      LastIndexOfBefore(t, c, d');
    }
  }

  lemma SplitAtLastOf(t: string, c: char, d: string)
    requires c !in d
    ensures SplitAtLast(t + [c] + d, c) == Some((t, d))
  {
    var s := t + [c] + d;
    LastIndexOfBefore(t, c, d);
    assert s[..|t|] == t;
    assert s[|t| + 1..] == d;
  }

  lemma DecimalHasNoColon(n: nat)
    ensures ':' !in NatToString(n)
  {
  }

  /** The key of a held asset whose id contains no `/` reads back as that
      asset's id, UTXO txid and UTXO index. */
  lemma {:induction false} AssetUtxoIdRoundTrip(asset: HeldAsset)
    requires '/' !in asset.assetId
    ensures ParseAssetUtxoId(AssetUtxoId(asset)) == Some(UtxoKey(asset.assetId, asset.utxo.txid, asset.utxo.index))
  {
    var t, d := asset.utxo.txid, NatToString(asset.utxo.index);
    var key := AssetUtxoId(asset);
    assert SplitAtFirst(key, '/') == Some((asset.assetId, t + ":" + d));
    NatToStringValue(asset.utxo.index);
    DecimalHasNoColon(asset.utxo.index);
    SplitAtLastOf(t, ':', d);
    assert ParseIndex(d) == Some(asset.utxo.index);
  }

  /** Held assets whose ids contain no `/` share a metadata key only when
      they agree on asset id, UTXO txid and UTXO index. */
  lemma AssetUtxoIdInjective(x: HeldAsset, y: HeldAsset)
    requires '/' !in x.assetId && '/' !in y.assetId
    ensures AssetUtxoId(x) == AssetUtxoId(y) <==>
      x.assetId == y.assetId && x.utxo.txid == y.utxo.txid && x.utxo.index == y.utxo.index
  {
    AssetUtxoIdRoundTrip(x);
    AssetUtxoIdRoundTrip(y);
  }
}

=== FILE: enrichment.dfy ===
/** Which outputs of a transaction are enriched with colored-asset metadata.

    The convention is a marker-output heuristic: an output with no address
    that directly follows an output with an address is taken to carry asset
    information about that address, so the asset service is asked about the
    preceding output's address. Every other output gets no `metadata` field. */
module Enrichment {
  import opened Wrappers
  import opened JsValues
  import opened Records

  /** The address looked up for output `i`, or `None` when no lookup is made. */
  function LookupKey(outputs: seq<RawOutput>, i: nat): (key: Option<string>)
    requires i < |outputs|
    ensures key.Some? <==> i > 0 && !Truthy(outputs[i].address) && Truthy(outputs[i - 1].address)
    ensures key.Some? ==> key.value == outputs[i - 1].address.value && key.value != ""
  {
    if !Truthy(outputs[i].address) && i > 0 then
      var previous := outputs[i - 1].address;
      if Truthy(previous) then Some(previous.value) else None
    else None
  }

  /** The `metadata` field of output `i`: absent when no lookup is made, the
      lookup's list when it succeeds (possibly empty), and `null` when it
      fails. */
  function Metadata(outputs: seq<RawOutput>, i: nat, lookup: string -> Option<seq<AssetMetadata>>)
    : (m: Option<Option<seq<AssetMetadata>>>)
    requires i < |outputs|
    ensures m.Some? <==> LookupKey(outputs, i).Some?
    ensures m.Some? ==> m.value == lookup(outputs[i - 1].address.value)
  {
    match LookupKey(outputs, i)
    case None => None
    case Some(address) => Some(lookup(address))
  }

  /** Two neighbouring outputs are never both looked up: an output that is
      looked up has no address, so the one after it has no key. */
  lemma NoAdjacentLookups(outputs: seq<RawOutput>, i: nat)
    requires i + 1 < |outputs|
    ensures !(LookupKey(outputs, i).Some? && LookupKey(outputs, i + 1).Some?)
  {
  }

  /** Number of outputs among the first `k` that are looked up. */
  function LookupCount(outputs: seq<RawOutput>, k: nat): nat
    requires k <= |outputs|
  {
    if k == 0 then 0
    else LookupCount(outputs, k - 1) + (if LookupKey(outputs, k - 1).Some? then 1 else 0)
  }

  /** Number of outputs among the first `k` that carry an address. */
  function AddressCount(outputs: seq<RawOutput>, k: nat): nat
    requires k <= |outputs|
  {
    if k == 0 then 0
    else AddressCount(outputs, k - 1) + (if Truthy(outputs[k - 1].address) then 1 else 0)
  }

  /** Lookups among the first `k + 1` outputs are charged to distinct
      address-bearing outputs among the first `k`. */
  lemma {:induction false} LookupsChargedToAddresses(outputs: seq<RawOutput>, k: nat)
    requires k < |outputs|
    ensures LookupCount(outputs, k + 1) <= AddressCount(outputs, k)
  {
    if k > 0 {
      LookupsChargedToAddresses(outputs, k - 1);
    }
  }

  /** A transform makes at most one asset lookup per address-bearing output. */
  lemma LookupsBoundedByAddresses(outputs: seq<RawOutput>)
    ensures LookupCount(outputs, |outputs|) <= AddressCount(outputs, |outputs|)
  {
    if |outputs| > 0 {
      LookupsChargedToAddresses(outputs, |outputs| - 1);
    }
  }
}

=== FILE: inv_transaction.dfy ===
/** The compact view of a transaction announced on the inventory feed:
    total output value, the outputs that pay an address, and whether the
    transaction signals replace-by-fee. */
module InvTransaction {
  import opened Wrappers

  /** 2^32 - 1, the largest input sequence number. */
  const MaxInt: int := 0xffffffff

  /** An input; its sequence number may be missing. */
  datatype InvInput = InvInput(sequenceNumber: Option<int>)

  /** An output; `script` is the parsed output script, when there is one. */
  datatype InvOutput = InvOutput(satoshis: int, script: Option<string>)

  datatype InvTx = InvTx(hash: string, inputs: seq<InvInput>, outputs: seq<InvOutput>)

  /** One `{address: satoshis}` entry of the view's `vout`. */
  datatype AddressAmount = AddressAmount(address: string, satoshis: int)

  /** The view; `valueOut` is in BTC. */
  datatype InvView = InvView(txid: string, valueOut: real, vout: seq<AddressAmount>, isRBF: bool)

  /** Total satoshis of the outputs. */
  function TotalSatoshis(outputs: seq<InvOutput>): int
    decreases |outputs|
  {
    if |outputs| == 0 then 0 else TotalSatoshis(outputs[..|outputs| - 1]) + outputs[|outputs| - 1].satoshis
  }

  /** The address an output pays, if its script decodes to one on the node's
      network (`toAddress` is that decoder). */
  function PaidAddress(output: InvOutput, toAddress: string -> Option<string>): Option<string> {
    if output.script.Some? then toAddress(output.script.value) else None
  }

  /** Reference definition: the outputs that pay an address, in output order. */
  function AddressedOutputs(outputs: seq<InvOutput>, toAddress: string -> Option<string>): seq<AddressAmount>
    decreases |outputs|
  {
    if |outputs| == 0 then []
    else
      var last := outputs[|outputs| - 1];
      AddressedOutputs(outputs[..|outputs| - 1], toAddress) +
        match PaidAddress(last, toAddress)
        case None => []
        case Some(a) => [AddressAmount(a, last.satoshis)]
  }

  /** An input signals replace-by-fee when its sequence number is below
      2^32 - 2; a missing sequence number does not signal. */
  predicate SignalsRbf(input: InvInput) {
    input.sequenceNumber.Some? && input.sequenceNumber.value < MaxInt - 1
  }

  method TransformInvTransaction(tx: InvTx, toAddress: string -> Option<string>) returns (view: InvView)
    ensures view.txid == tx.hash
    ensures view.valueOut * 100000000.0 == TotalSatoshis(tx.outputs) as real
    ensures view.vout == AddressedOutputs(tx.outputs, toAddress)
    ensures view.isRBF <==> exists i :: 0 <= i < |tx.inputs| && SignalsRbf(tx.inputs[i])
  {
    var valueOut := 0;
    var vout: seq<AddressAmount> := [];
    var i := 0;
    while i < |tx.outputs|
      invariant 0 <= i <= |tx.outputs|
      invariant valueOut == TotalSatoshis(tx.outputs[..i])
      invariant vout == AddressedOutputs(tx.outputs[..i], toAddress)
    {
      var output := tx.outputs[i];
      assert tx.outputs[..i + 1][..i] == tx.outputs[..i];
      valueOut := valueOut + output.satoshis;
      if output.script.Some? {
        var address := toAddress(output.script.value);
        if address.Some? {
          vout := vout + [AddressAmount(address.value, output.satoshis)];
        }
      }
      i := i + 1;
    }
    assert tx.outputs[..i] == tx.outputs;

    var isRbf := false;
    var j := 0;
    while j < |tx.inputs|
      invariant 0 <= j <= |tx.inputs|
      invariant isRbf <==> exists k :: 0 <= k < j && SignalsRbf(tx.inputs[k])
    {
      if SignalsRbf(tx.inputs[j]) {
        isRbf := true;
      }
      j := j + 1;
    }

    view := InvView(tx.hash, valueOut as real / 100000000.0, vout, isRbf);
  }

  /** An entry of the view's `vout` exists exactly for each output whose
      script pays an address, carrying that address and the output's amount. */
  lemma {:induction false} AddressedOutputsMembership(outputs: seq<InvOutput>, toAddress: string -> Option<string>, e: AddressAmount)
    ensures e in AddressedOutputs(outputs, toAddress) <==>
      exists i :: 0 <= i < |outputs| && PaidAddress(outputs[i], toAddress) == Some(e.address) && outputs[i].satoshis == e.satoshis
    decreases |outputs|
  {
    if |outputs| > 0 {
      var init := outputs[..|outputs| - 1];
      AddressedOutputsMembership(init, toAddress, e);
      if exists i :: 0 <= i < |outputs| && PaidAddress(outputs[i], toAddress) == Some(e.address) && outputs[i].satoshis == e.satoshis {
        var i :| 0 <= i < |outputs| && PaidAddress(outputs[i], toAddress) == Some(e.address) && outputs[i].satoshis == e.satoshis;
        if i < |outputs| - 1 {
          assert init[i] == outputs[i];
        }
      }
      if e in AddressedOutputs(init, toAddress) {
        var i :| 0 <= i < |init| && PaidAddress(init[i], toAddress) == Some(e.address) && init[i].satoshis == e.satoshis;
        assert outputs[i] == init[i];
      }
    }
  }

  /** The view never lists more entries than the transaction has outputs. */
  lemma {:induction false} AddressedOutputsLength(outputs: seq<InvOutput>, toAddress: string -> Option<string>)
    ensures |AddressedOutputs(outputs, toAddress)| <= |outputs|
    decreases |outputs|
  {
    if |outputs| > 0 {
      AddressedOutputsLength(outputs[..|outputs| - 1], toAddress);
    }
  }
}

=== FILE: js_values.dfy ===
/** The small pieces of JavaScript semantics the transaction controller leans
    on: truthiness of optional strings, decimal rendering of numbers,
    `parseInt` with no radix, and `Array.prototype.slice`. */
module JsValues {
  import opened Wrappers

  /** JavaScript truthiness of a possibly-missing string field: `undefined`,
      `null` and the empty string are falsy, every other string is truthy. */
  predicate Truthy(s: Option<string>) {
    s.Some? && s.value != ""
  }

  // ---------------------------------------------------------------------------
  // Decimal digits
  // ---------------------------------------------------------------------------

  predicate IsDecimalDigit(c: char) {
    '0' <= c <= '9'
  }

  /** The value of a digit character in the given radix (10 or 16), if it is one. */
  function DigitValue(c: char, radix: nat): (r: Option<nat>)
    requires radix == 10 || radix == 16
    ensures r.Some? ==> r.value < radix
    ensures radix == 10 ==> (r.Some? <==> IsDecimalDigit(c))
  {
    if IsDecimalDigit(c) then Some(c as nat - '0' as nat)
    else if radix == 16 && 'a' <= c <= 'f' then Some(c as nat - 'a' as nat + 10)
    else if radix == 16 && 'A' <= c <= 'F' then Some(c as nat - 'A' as nat + 10)
    else None
  }

  predicate AllDigits(s: string, radix: nat)
    requires radix == 10 || radix == 16
  {
    forall i :: 0 <= i < |s| ==> DigitValue(s[i], radix).Some?
  }

  /** The number denoted by a string of digits, most significant digit
      first (a character that is not a digit counts as 0). */
  function DigitsValue(s: string, radix: nat): nat
    requires radix == 10 || radix == 16
    decreases |s|
  {
    if |s| == 0 then 0
    else
      var high := DigitsValue(s[..|s| - 1], radix);
      (if radix == 10 then high * 10 else high * 16) + DigitValue(s[|s| - 1], radix).GetOr(0)
  }

  function DigitChar(d: nat): (c: char)
    requires d < 10
    ensures IsDecimalDigit(c)
    ensures DigitValue(c, 10) == Some(d)
  {
    ('0' as nat + d) as char
  }

  /** The shortest decimal rendering of a non-negative integer, which is what
      `String(n)` gives below 10^21 (above, JavaScript switches to exponent
      form). */
  function NatToString(n: nat): (s: string)
    ensures |s| > 0
    ensures AllDigits(s, 10)
    ensures s[0] == '0' ==> n == 0
    decreases n
  {
    if n < 10 then [DigitChar(n)]
    else NatToString(n / 10) + [DigitChar(n % 10)]
  }

  /** The decimal rendering denotes the number it renders. */
  lemma {:induction false} NatToStringValue(n: nat)
    ensures DigitsValue(NatToString(n), 10) == n
    decreases n
  {
    var s := NatToString(n);
    if n >= 10 {
      NatToStringValue(n / 10);
      assert s[..|s| - 1] == NatToString(n / 10);
    }
  }

  // ---------------------------------------------------------------------------
  // parseInt(s) with an undefined radix
  // ---------------------------------------------------------------------------

  /** The characters `parseInt` skips before the number: the ECMAScript
      WhiteSpace and LineTerminator code points. */
  predicate IsJsSpace(c: char) {
    || c == '\t' || c == '\n' || c == '\U{000B}' || c == '\U{000C}' || c == '\r'
    || c == ' ' || c == '\U{00A0}' || c == '\U{1680}'
    || ('\U{2000}' <= c <= '\U{200A}')
    || c == '\U{2028}' || c == '\U{2029}' || c == '\U{202F}' || c == '\U{205F}'
    || c == '\U{3000}' || c == '\U{FEFF}'
  }

  function TrimStart(s: string): (r: string)
    ensures |r| <= |s| && r == s[|s| - |r|..]
    ensures |r| > 0 ==> !IsJsSpace(r[0])
  {
    if |s| > 0 && IsJsSpace(s[0]) then TrimStart(s[1..]) else s
  }

  /** Length of the longest prefix of `s` made of digits of the radix. */
  function DigitPrefixLength(s: string, radix: nat): (k: nat)
    requires radix == 10 || radix == 16
    ensures k <= |s|
  {
    if |s| > 0 && DigitValue(s[0], radix).Some? then 1 + DigitPrefixLength(s[1..], radix) else 0
  }

  /** The unsigned part of `parseInt`: a `0x`/`0X` prefix selects radix 16,
      then the longest run of digits is read; `None` when there is none. */
  function ParseMagnitude(u: string): Option<nat>
  {
    var radix := if HasHexPrefix(u) then 16 else 10;
    var body := if HasHexPrefix(u) then u[2..] else u;
    var k := DigitPrefixLength(body, radix);
    if k == 0 then None else Some(DigitsValue(body[..k], radix))
  }

  predicate HasHexPrefix(u: string) {
    |u| >= 2 && u[0] == '0' && (u[1] == 'x' || u[1] == 'X')
  }

  /** `parseInt(s)` with no radix argument; `None` stands for `NaN`.
      Leading white space is skipped, then `ParseSigned` reads the rest. */
  function ParseInt(s: string): (r: Option<int>)
    ensures s == "" ==> r.None?
    ensures |s| > 0 && IsJsSpace(s[0]) ==> r == ParseInt(s[1..])
    ensures r.Some? && r.value < 0 ==> IsNegative(TrimStart(s))
    ensures r.Some? && r.value > 0 ==> !IsNegative(TrimStart(s))
    decreases |s|
  {
    if |s| > 0 && IsJsSpace(s[0]) then
      assert TrimStart(s) == TrimStart(s[1..]);
      ParseSigned(TrimStart(s))
    else ParseSigned(TrimStart(s))
  }

  predicate IsNegative(t: string) {
    |t| > 0 && t[0] == '-'
  }

  /** `t` without its leading sign, if it has one. */
  function Unsigned(t: string): string {
    if |t| > 0 && (t[0] == '-' || t[0] == '+') then t[1..] else t
  }

  /** One optional sign, then the magnitude; text after the digits is ignored. */
  function ParseSigned(t: string): (r: Option<int>)
    ensures r.Some? && r.value < 0 ==> IsNegative(t)
    ensures r.Some? && r.value > 0 ==> !IsNegative(t)
  {
    match ParseMagnitude(Unsigned(t))
    case None => None
    case Some(m) => Some(if IsNegative(t) then -(m as int) else m as int)
  }

  lemma {:induction false} DigitPrefixOfDigits(s: string)
    requires AllDigits(s, 10)
    ensures DigitPrefixLength(s, 10) == |s|
    decreases |s|
  {
    if |s| > 0 {
      assert AllDigits(s[1..], 10) by {
        forall i | 0 <= i < |s| - 1 ensures DigitValue(s[1..][i], 10).Some? {
          assert s[1..][i] == s[i + 1];
        }
      }
      DigitPrefixOfDigits(s[1..]);
    }
  }

  lemma ParseMagnitudeOfDigits(d: string)
    requires |d| > 0 && AllDigits(d, 10)
    ensures ParseMagnitude(d) == Some(DigitsValue(d, 10))
  {
    assert !HasHexPrefix(d) by {
      if |d| >= 2 { assert DigitValue(d[1], 10).Some?; }
    }
    DigitPrefixOfDigits(d);
    assert d[..|d|] == d;
  }

  lemma TrimStartOfNonSpace(s: string)
    requires |s| > 0 && !IsJsSpace(s[0])
    ensures TrimStart(s) == s
  {
  }

  /** `parseInt` reads a run of decimal digits as the number it denotes. */
  lemma ParseIntOfDigits(d: string)
    ensures |d| > 0 && AllDigits(d, 10) ==> ParseInt(d) == Some(DigitsValue(d, 10))
  {
    if |d| > 0 && AllDigits(d, 10) {
      assert IsDecimalDigit(d[0]) by { assert DigitValue(d[0], 10).Some?; }
      TrimStartOfNonSpace(d);
      assert Unsigned(d) == d && !IsNegative(d);
      ParseMagnitudeOfDigits(d);
    }
  }

  /** Text without leading white space whose unsigned part has magnitude
      `m` (decimal, or hexadecimal after `0x`) is read as `m`, negated when
      the text starts with a minus sign. */
  lemma ParseIntOfSigned(t: string, m: nat)
    requires TrimStart(t) == t && ParseMagnitude(Unsigned(t)) == Some(m)
    ensures ParseInt(t) == Some(if IsNegative(t) then -(m as int) else m)
  {
  }

  /** `parseInt` yields `NaN` for text whose first character is neither white
      space, a sign nor a decimal digit. */
  lemma ParseIntNaN(s: string)
    ensures |s| > 0 && !IsJsSpace(s[0]) && s[0] != '-' && s[0] != '+' && !IsDecimalDigit(s[0]) ==>
      ParseInt(s) == None
  {
  }

  /** `parseInt` reads text made of a minus sign and decimal digits as the
      negated number the digits denote. */
  lemma ParseIntOfMinusText(s: string)
    ensures |s| > 1 && s[0] == '-' && AllDigits(s[1..], 10) ==>
      ParseInt(s) == Some(-(DigitsValue(s[1..], 10) as int))
  {
    if |s| > 1 && s[0] == '-' && AllDigits(s[1..], 10) {
      var d := s[1..];
      var v := DigitsValue(d, 10);
      assert Unsigned(s) == d;
      TrimStartOfNonSpace(s);
      ParseMagnitudeOfDigits(d);
      ParseIntOfSigned(s, v);
    }
  }

  // ---------------------------------------------------------------------------
  // Array.prototype.slice(start, end)
  // ---------------------------------------------------------------------------

  /** A relative index as `slice` resolves it: negative values count back
      from the end, and the result is clamped to `[0, len]`. */
  function ResolveIndex(relative: int, len: nat): (k: nat)
    ensures k <= len
    ensures 0 <= relative ==> k == if relative < len then relative else len
    ensures relative < 0 ==> k == if len + relative < 0 then 0 else len + relative
  {
    if relative < 0 then (if len + relative < 0 then 0 else len + relative)
    else if relative < len then relative else len
  }

  /** `s.slice(start, end)`: the entries from the resolved start up to, not
      including, the resolved end, or none when the end does not lie past the
      start. */
  function Slice<T>(s: seq<T>, start: int, end: int): (r: seq<T>)
    ensures |r| <= |s|
    ensures var a := ResolveIndex(start, |s|); var b := ResolveIndex(end, |s|);
      && |r| == (if a < b then b - a else 0)
      && forall i :: 0 <= i < |r| ==> a + i < |s| && r[i] == s[a + i]
    ensures 0 <= start && start <= end ==>
      |r| == (if end < |s| then end else |s|) - (if start < |s| then start else |s|)
    ensures 0 <= start && start <= end ==> forall i :: 0 <= i < |r| ==> start + i < |s| && r[i] == s[start + i]
    ensures start < 0 && -start <= |s| && |s| <= end ==> r == s[|s| + start..]
    ensures end <= start && (0 <= end || start < 0) ==> r == []
  {
    var a := ResolveIndex(start, |s|);
    var b := ResolveIndex(end, |s|);
    if a < b then s[a..b] else []
  }
}

=== FILE: listing.dfy ===
/** Listing the transactions of a block or of an address, one page at a time. */
module Listing {
  import opened Wrappers
  import opened JsValues

  const PageLength: nat := 10

  // ---------------------------------------------------------------------------
  // Page arithmetic
  // ---------------------------------------------------------------------------

  /** `parseInt(pageNum) || 0`: a missing or non-numeric page number (NaN) is
      page 0; otherwise the integer `parseInt` reads, which may be negative. */
  function PageNumber(pageNum: Option<string>): (page: int)
    ensures pageNum.None? ==> page == 0
    ensures pageNum.Some? && |pageNum.value| > 0 && AllDigits(pageNum.value, 10) ==>
      page == DigitsValue(pageNum.value, 10)
    ensures pageNum.Some? && |pageNum.value| > 1 && pageNum.value[0] == '-' && AllDigits(pageNum.value[1..], 10) ==>
      page == -(DigitsValue(pageNum.value[1..], 10) as int)
    ensures pageNum.Some? && |pageNum.value| > 0 && !IsJsSpace(pageNum.value[0])
              && pageNum.value[0] != '-' && pageNum.value[0] != '+' && !IsDecimalDigit(pageNum.value[0]) ==>
      page == 0
  {
    if pageNum.None? then 0
    else
      ParseIntOfDigits(pageNum.value);
      ParseIntOfMinusText(pageNum.value);
      ParseIntNaN(pageNum.value);
      match ParseInt(pageNum.value)
      case None => 0
      case Some(page) => page
  }

  /** A page number written in decimal is read back. */
  lemma PageNumberOfDecimal(n: nat)
    ensures PageNumber(Some(NatToString(n))) == n
  {
    NatToStringValue(n);
  }

  /** A page number written in decimal after a minus sign is read back as
      that negative number. */
  lemma PageNumberOfNegativeDecimal(n: nat, text: string)
    requires text == "-" + NatToString(n)
    ensures PageNumber(Some(text)) == -(n as int)
  {
    NatToStringValue(n);
    assert text[1..] == NatToString(n);
  }

  /** A missing page number, or one that starts with neither white space,
      a sign nor a digit, is page 0. */
  lemma PageNumberDefault(text: string)
    requires |text| > 0 && !IsJsSpace(text[0]) && text[0] != '-' && text[0] != '+' && !IsDecimalDigit(text[0])
    ensures PageNumber(Some(text)) == 0
    ensures PageNumber(None) == 0
  {
    ParseIntNaN(text);
  }

  /** `Math.ceil(total / 10)`: the number of pages `total` entries fill. */
  function PagesTotal(total: nat): (pages: nat)
    ensures pages * PageLength >= total
    ensures pages > 0 ==> (pages - 1) * PageLength < total
  {
    (total + PageLength - 1) / PageLength
  }

  /** The block-mode page: `txids.slice(page * 10, page * 10 + 10)`. */
  function BlockPage<T>(txids: seq<T>, page: int): (p: seq<T>)
    ensures |p| <= PageLength && |p| <= |txids|
    ensures forall i :: 0 <= i < |p| ==>
      && ResolveIndex(page * PageLength, |txids|) + i < |txids|
      && p[i] == txids[ResolveIndex(page * PageLength, |txids|) + i]
  {
    Slice(txids, page * PageLength, page * PageLength + PageLength)
  }

  /** For a page number of 0 or more the block page is the window
      `[page * 10, page * 10 + 10)` of the list, clamped to its end. */
  lemma BlockPageWindow<T>(txids: seq<T>, page: nat)
    ensures var start := if page * PageLength < |txids| then page * PageLength else |txids|;
      var end := if page * PageLength + PageLength < |txids| then page * PageLength + PageLength else |txids|;
      BlockPage(txids, page) == txids[start..end]
  {
  }

  /** A negative page number counts pages back from the end of the list, as
      `slice` does with negative bounds: page -1 is empty (it ends at index
      0), and page -k for k >= 2 is the window that ends (k - 1) * 10 entries
      before the end of the list, clipped at its start. */
  lemma BlockPageOfNegative<T>(txids: seq<T>, page: int)
    requires page < 0
    ensures page == -1 ==> BlockPage(txids, page) == []
    ensures page < -1 ==>
      var start := if |txids| + page * PageLength < 0 then 0 else |txids| + page * PageLength;
      var end := if |txids| + page * PageLength + PageLength < 0 then 0 else |txids| + page * PageLength + PageLength;
      BlockPage(txids, page) == txids[start..end]
  {
  }

  /** The pages 0 .. PagesTotal - 1 cover the list: entry `i` is entry
      `i % 10` of page `i / 10`, and that page is one of them. */
  lemma BlockPagesCoverList<T>(txids: seq<T>, i: nat)
    requires i < |txids|
    ensures i / PageLength < PagesTotal(|txids|)
    ensures i % PageLength < |BlockPage(txids, i / PageLength)|
    ensures BlockPage(txids, i / PageLength)[i % PageLength] == txids[i]
  {
  }

  /** Pages from `PagesTotal` on are empty. */
  lemma BlockPagesPastTheEnd<T>(txids: seq<T>, page: nat)
    requires page >= PagesTotal(|txids|)
    ensures BlockPage(txids, page) == []
  {
  }

  /** The history window requested in address mode. */
  datatype Window = Window(from: int, to: int)

  function AddressWindow(page: int): (w: Window)
    ensures w.from == page * PageLength
    ensures w.to - w.from == PageLength
  {
    Window(page * PageLength, (page + 1) * PageLength)
  }

  /** For a page number of 0 or more, address mode asks for the same index
      range of its history that block mode cuts out of the block's list. */
  lemma AddressWindowIsBlockPage<T>(txids: seq<T>, page: nat)
    ensures var w := AddressWindow(page);
      var start := if w.from < |txids| then w.from else |txids|;
      var end := if w.to < |txids| then w.to else |txids|;
      BlockPage(txids, page) == txids[start..end]
  {
    BlockPageWindow(txids, page);
  }

  /** Consecutive pages request adjacent, non-overlapping windows. */
  lemma AddressWindowsTile(page: int)
    ensures AddressWindow(page).to == AddressWindow(page + 1).from
  {
  }

  // ---------------------------------------------------------------------------
  // De-duplication of the address history
  // ---------------------------------------------------------------------------

  /** `s.indexOf(x)`: the first position of `x`, or -1. */
  function IndexOf<T(==)>(s: seq<T>, x: T): (k: int)
    ensures -1 <= k < |s|
    ensures k >= 0 ==> s[k] == x && forall i :: 0 <= i < k ==> s[i] != x
    ensures k < 0 ==> x !in s
    decreases |s|
  {
    if |s| == 0 then -1
    else if s[0] == x then 0
    else
      var k := IndexOf(s[1..], x);
      if k < 0 then -1 else k + 1
  }

  /** `s.filter((v, i) => s.indexOf(v) === i)` restricted to the first `k`
      positions: the entries that are the first occurrence of their value. */
  function KeepFirst<T(==)>(s: seq<T>, k: nat): seq<T>
    requires k <= |s|
  {
    if k == 0 then []
    else KeepFirst(s, k - 1) + (if IndexOf(s, s[k - 1]) == k - 1 then [s[k - 1]] else [])
  }

  /** The de-duplicated history. */
  function Dedup<T(==)>(s: seq<T>): (d: seq<T>)
    ensures forall i :: 0 <= i < |d| ==> d[i] in s
    ensures forall i :: 0 <= i < |s| ==> s[i] in d
    ensures NoDuplicates(d)
  {
    KeepFirstInvariant(s, |s|);
    assert s[..|s|] == s;
    KeepFirst(s, |s|)
  }

  predicate NoDuplicates<T(==)>(s: seq<T>) {
    forall a, b :: 0 <= a < b < |s| ==> s[a] != s[b]
  }

  /** What the filter keeps from the first `k` positions: exactly their
      values, each once, ordered by first occurrence. */
  lemma {:induction false} KeepFirstInvariant<T>(s: seq<T>, k: nat)
    requires k <= |s|
    ensures forall x :: x in KeepFirst(s, k) <==> x in s[..k]
    ensures NoDuplicates(KeepFirst(s, k))
    ensures forall a :: 0 <= a < |KeepFirst(s, k)| ==> 0 <= IndexOf(s, KeepFirst(s, k)[a]) < k
    ensures forall a, b :: 0 <= a < b < |KeepFirst(s, k)| ==>
      IndexOf(s, KeepFirst(s, k)[a]) < IndexOf(s, KeepFirst(s, k)[b])
  {
    if k > 0 {
      KeepFirstInvariant(s, k - 1);
      var prev := KeepFirst(s, k - 1);
      var x := s[k - 1];
      assert s[..k] == s[..k - 1] + [x];
      if IndexOf(s, x) == k - 1 {
        assert x !in s[..k - 1];
        assert x !in prev;
        assert KeepFirst(s, k) == prev + [x];
      } else {
        var j := IndexOf(s, x);
        assert s[..k - 1][j] == x;
        assert KeepFirst(s, k) == prev;
      }
    }
  }

  /** The de-duplicated history holds every transaction of the history,
      each exactly once, in the order of their first occurrence. */
  lemma DedupProperties<T>(s: seq<T>)
    ensures forall x :: x in Dedup(s) <==> x in s
    ensures NoDuplicates(Dedup(s))
    ensures forall a, b :: 0 <= a < b < |Dedup(s)| ==> IndexOf(s, Dedup(s)[a]) < IndexOf(s, Dedup(s)[b])
  {
    KeepFirstInvariant(s, |s|);
    assert s[..|s|] == s;
  }

  /** A history without duplicates is left as it is. */
  lemma {:induction false} DedupOfDistinct<T>(s: seq<T>, k: nat)
    requires NoDuplicates(s)
    requires k <= |s|
    ensures KeepFirst(s, k) == s[..k]
  {
    if k > 0 {
      DedupOfDistinct(s, k - 1);
      assert IndexOf(s, s[k - 1]) == k - 1;
      assert s[..k] == s[..k - 1] + [s[k - 1]];
    }
  }

  /** De-duplicating twice gives the same as de-duplicating once. */
  lemma DedupIdempotent<T>(s: seq<T>)
    ensures Dedup(Dedup(s)) == Dedup(s)
  {
    DedupProperties(s);
    DedupOfDistinct(Dedup(s), |Dedup(s)|);
    assert Dedup(s)[..|Dedup(s)|] == Dedup(s);
  }

  // ---------------------------------------------------------------------------
  // The two listing modes
  // ---------------------------------------------------------------------------

  /** Applies `f` to each element in turn, stopping at the first failure. */
  function MapSeries<A, B, E>(xs: seq<A>, f: A -> Result<B, E>): (r: Result<seq<B>, E>)
    ensures r.Success? <==> forall i :: 0 <= i < |xs| ==> f(xs[i]).Success?
    ensures r.Success? ==> |r.value| == |xs| && forall i :: 0 <= i < |xs| ==> f(xs[i]) == Success(r.value[i])
    ensures r.Failure? ==>
      exists i :: 0 <= i < |xs| && f(xs[i]) == Failure(r.error) && (forall j :: 0 <= j < i ==> f(xs[j]).Success?)
    decreases |xs|
  {
    if |xs| == 0 then Success([])
    else
      match f(xs[0])
      case Failure(e) => Failure(e)
      case Success(y) =>
        match MapSeries(xs[1..], f)
        case Failure(e) => Failure(e)
        case Success(ys) => Success([y] + ys)
  }

  /** An error reported by the chain index; code -5 means "not found". */
  datatype ChainError = ChainError(code: int)

  const NotFoundCode: int := -5

  /** Why one listed transaction could not be produced: the chain index
      failed to return it, or it could not be transformed. */
  datatype TxError = TxUnavailable(error: ChainError) | TxNotTransformed

  /** Why a listing request fails: no block hash or address was given, the
      chain index failed on the block or history, or a listed transaction
      could not be produced. */
  datatype ListError = MissingSelector | Chain(error: ChainError) | Tx(txError: TxError)

  /** What a listing request answers: a page of transformed transactions, a
      not-found answer, or an error. */
  datatype ListResponse<U> =
    | Page(pagesTotal: nat, txs: seq<U>)
    | NotFound
    | Failed(error: ListError)

  /** An address history: the transactions in the requested window and the
      total number of history entries. */
  datatype History<T> = History(items: seq<T>, totalCount: nat)

  /** Block mode: the page's transactions are fetched and transformed one at
      a time, in block order; `fetch` stands for fetching the detailed
      transaction from the chain index and transforming it. A block the
      chain index does not know is a not-found answer; any other error,
      including one from `fetch`, fails the request. */
  function ListByBlock<U>(blockHash: string, page: int,
                          blockOverview: string -> Result<seq<string>, ChainError>,
                          fetch: string -> Result<U, TxError>): (r: ListResponse<U>)
    ensures blockOverview(blockHash) == Failure(ChainError(NotFoundCode)) ==> r == NotFound
    ensures blockOverview(blockHash).Failure? && blockOverview(blockHash).error.code != NotFoundCode ==>
      r == Failed(Chain(blockOverview(blockHash).error))
    ensures r.Page? <==>
      && blockOverview(blockHash).Success?
      && forall i :: 0 <= i < |BlockPage(blockOverview(blockHash).value, page)| ==>
           fetch(BlockPage(blockOverview(blockHash).value, page)[i]).Success?
    ensures blockOverview(blockHash).Success? && !r.Page? ==>
      var txs := BlockPage(blockOverview(blockHash).value, page);
      && r.Failed? && r.error.Tx?
      && exists i :: 0 <= i < |txs| && fetch(txs[i]) == Failure(r.error.txError)
           && forall j :: 0 <= j < i ==> fetch(txs[j]).Success?
    ensures r.Page? && blockOverview(blockHash).Success? ==>
      var txids := blockOverview(blockHash).value;
      && r.pagesTotal == PagesTotal(|txids|)
      && |r.txs| == |BlockPage(txids, page)|
      && forall i :: 0 <= i < |r.txs| ==> fetch(BlockPage(txids, page)[i]) == Success(r.txs[i])
  {
    match blockOverview(blockHash)
    case Failure(e) => if e.code == NotFoundCode then NotFound else Failed(Chain(e))
    case Success(txids) =>
      match MapSeries(BlockPage(txids, page), fetch)
      case Failure(e) => Failed(Tx(e))
      case Success(txs) => Page(PagesTotal(|txids|), txs)
  }

  /** Address mode: the history window of the page is requested, repeated
      transactions are dropped, and each remaining one is transformed, its
      result kept at its own position; `transform` stands for the
      transaction transform. Any error fails the request. */
  function ListByAddress<T(==), U>(address: string, page: int,
                                   addressHistory: (string, Window) -> Result<History<T>, ChainError>,
                                   transform: T -> Result<U, TxError>): (r: ListResponse<U>)
    ensures r != NotFound
    ensures addressHistory(address, AddressWindow(page)).Failure? ==>
      r == Failed(Chain(addressHistory(address, AddressWindow(page)).error))
    ensures r.Page? <==>
      && addressHistory(address, AddressWindow(page)).Success?
      && forall i :: 0 <= i < |Dedup(addressHistory(address, AddressWindow(page)).value.items)| ==>
           transform(Dedup(addressHistory(address, AddressWindow(page)).value.items)[i]).Success?
    ensures addressHistory(address, AddressWindow(page)).Success? && !r.Page? ==>
      var txs := Dedup(addressHistory(address, AddressWindow(page)).value.items);
      && r.Failed? && r.error.Tx?
      && exists i :: 0 <= i < |txs| && transform(txs[i]) == Failure(r.error.txError)
           && forall j :: 0 <= j < i ==> transform(txs[j]).Success?
    ensures r.Page? && addressHistory(address, AddressWindow(page)).Success? ==>
      var history := addressHistory(address, AddressWindow(page));
      && r.pagesTotal == PagesTotal(history.value.totalCount)
      && |r.txs| == |Dedup(history.value.items)|
      && forall i :: 0 <= i < |r.txs| ==> transform(Dedup(history.value.items)[i]) == Success(r.txs[i])
  {
    match addressHistory(address, AddressWindow(page))
    case Failure(e) => Failed(Chain(e))
    case Success(history) =>
      match MapSeries(Dedup(history.items), transform)
      case Failure(e) => Failed(Tx(e))
      case Success(txs) => Page(PagesTotal(history.totalCount), txs)
  }

  /** The `list` request: a truthy block hash selects block mode (even when
      an address is also given), else a truthy address selects address mode,
      else the request fails for want of either. */
  function List<T(==), U>(block: Option<string>, address: Option<string>, pageNum: Option<string>,
                          blockOverview: string -> Result<seq<string>, ChainError>,
                          fetch: string -> Result<U, TxError>,
                          addressHistory: (string, Window) -> Result<History<T>, ChainError>,
                          transform: T -> Result<U, TxError>): (r: ListResponse<U>)
    ensures !Truthy(block) && !Truthy(address) <==> r == Failed(MissingSelector)
    ensures Truthy(block) ==> r == ListByBlock(block.value, PageNumber(pageNum), blockOverview, fetch)
    ensures !Truthy(block) && Truthy(address) ==>
      r == ListByAddress(address.value, PageNumber(pageNum), addressHistory, transform)
  {
    var page := PageNumber(pageNum);
    if Truthy(block) then ListByBlock(block.value, page, blockOverview, fetch)
    else if Truthy(address) then ListByAddress(address.value, page, addressHistory, transform)
    else Failed(MissingSelector)
  }
}

=== FILE: records.dfy ===
/** The records the transaction controller reads from the chain index and the
    asset service, and the canonical shapes it hands to API clients. Every
    record is an immutable value; optional JSON fields are `Option`s, where
    `None` means the field is absent (or `undefined`, which JSON drops). */
module Records {
  import opened Wrappers

  // ---------------------------------------------------------------------------
  // Raw records supplied by the chain index
  // ---------------------------------------------------------------------------

  datatype RawInput = RawInput(
    prevTxId: string,
    outputIndex: int,
    sequence: int,
    script: string,
    scriptAsm: Option<string>,
    address: Option<string>,
    satoshis: int)

  datatype RawOutput = RawOutput(
    script: string,
    scriptAsm: Option<string>,
    satoshis: int,
    address: Option<string>,
    spentTxId: Option<string>,
    spentIndex: Option<int>,
    spentHeight: Option<int>)

  /** A detailed transaction; `height` is -1 while it is unconfirmed. */
  datatype RawTransaction = RawTransaction(
    hash: string,
    version: int,
    locktime: int,
    coinbase: bool,
    height: int,
    blockHash: Option<string>,
    blockTimestamp: Option<int>,
    outputSatoshis: int,
    inputSatoshis: int,
    feeSatoshis: int,
    hex: string,
    inputs: seq<RawInput>,
    outputs: seq<RawOutput>)

  // ---------------------------------------------------------------------------
  // Colored-asset records supplied by the asset service
  // ---------------------------------------------------------------------------

  /** One asset balance held by an unspent output. */
  datatype AssetEntry = AssetEntry(assetId: string, amount: int)

  /** One unspent output of an address, as the asset service lists it. */
  datatype Utxo = Utxo(
    txid: string,
    index: nat,
    value: int,
    scriptPubKey: string,
    assets: seq<AssetEntry>)

  /** The body of an address-info reply; `utxos` may be missing. */
  datatype AddressInfo = AddressInfo(utxos: Option<seq<Utxo>>)

  /** The four fields of a UTXO that are kept next to each asset. */
  datatype UtxoRef = UtxoRef(txid: string, index: nat, value: int, scriptPubKey: string)

  /** An asset found at an address, with the UTXO that holds it. */
  datatype HeldAsset = HeldAsset(assetId: string, amount: int, utxo: UtxoRef)

  /** Issuance metadata of one held asset; `metadata` is an opaque payload. */
  datatype AssetMetadata = AssetMetadata(
    assetId: string,
    utxo: UtxoRef,
    asset: HeldAsset,
    divisible: int,
    reissuable: bool,
    issuanceTxid: string,
    issueAddress: string,
    metadata: string)

  // ---------------------------------------------------------------------------
  // Canonical (transformed) records
  // ---------------------------------------------------------------------------

  /** The recognised transform options; every flag defaults to false. */
  datatype TransformOptions = TransformOptions(noScriptSig: bool, noAsm: bool, noSpent: bool)

  const DefaultOptions := TransformOptions(false, false, false)

  datatype ScriptSig = ScriptSig(hex: string, asm: Option<string>)

  /** An entry of `vin`: the synthetic entry of a coinbase transaction, or a
      spent previous output. `value` is the amount in BTC. */
  datatype Vin =
    | CoinbaseVin(coinbase: string, sequence: int, n: nat)
    | SpendVin(
        txid: string,
        vout: int,
        sequence: int,
        n: nat,
        scriptSig: Option<ScriptSig>,
        addr: Option<string>,
        valueSat: int,
        value: real,
        doubleSpentTxId: Option<string>)

  /** `addressType` is the JSON field `type`. */
  datatype ScriptPubKey = ScriptPubKey(
    hex: string,
    asm: Option<string>,
    addresses: Option<seq<string>>,
    addressType: Option<string>)

  /** The three spend-location fields; each `None` is a JSON `null`. */
  datatype SpentFields = SpentFields(spentTxId: Option<string>, spentIndex: Option<int>, spentHeight: Option<int>)

  /** An entry of `vout`. `spent` is `None` when the fields are omitted;
      `metadata` is `None` when the field is absent and `Some(None)` when it
      is `null`. */
  datatype Vout = Vout(
    value: string,
    n: nat,
    scriptPubKey: ScriptPubKey,
    spent: Option<SpentFields>,
    metadata: Option<Option<seq<AssetMetadata>>>)

  /** The API view of a transaction. Amounts are in BTC; `size` is in bytes. */
  datatype Transformed = Transformed(
    txid: string,
    version: int,
    locktime: int,
    vin: seq<Vin>,
    vout: seq<Vout>,
    blockhash: Option<string>,
    blockheight: int,
    confirmations: int,
    time: int,
    blocktime: Option<int>,
    isCoinBase: Option<bool>,
    valueOut: real,
    size: real,
    valueIn: Option<real>,
    fees: Option<real>)

  /** What the controller asks of the outside world while transforming: the
      chain height, the clock (milliseconds since the epoch), the address
      classifier, the rendering of satoshis as an 8-decimal BTC string, and
      the asset lookup by address (`None` when the lookup fails; an address
      holding no assets yields `Some([])`). */
  datatype Collaborators = Collaborators(
    chainHeight: int,
    nowMillis: int,
    addressType: string -> string,
    formatBtc: int -> string,
    lookupAssets: string -> Option<seq<AssetMetadata>>)
}

=== FILE: transform.dfy ===
/** The transaction transformer: one raw transaction from the chain index
    becomes the canonical API view, with outputs enriched with asset metadata. */
module Transform {
  import opened Wrappers
  import opened JsValues
  import opened Records
  import Enrichment

  /** The one way a transform can fail: a coinbase transaction whose input
      list is empty (the controller reads `inputs[0]` unguarded). */
  datatype TransformError = CoinbaseWithoutInputs

  const SatoshisPerBtc: real := 100000000.0

  /** An amount in BTC: satoshis divided by 10^8, as an exact rational. */
  function Btc(satoshis: int): (btc: real)
    ensures btc * SatoshisPerBtc == satoshis as real
  {
    satoshis as real / SatoshisPerBtc
  }

  /** `Math.round(millis / 1000)`: the nearest whole second, halves rounded up. */
  function UnixSeconds(millis: int): (seconds: int)
    ensures seconds * 1000 - 500 <= millis < seconds * 1000 + 500
  {
    (millis + 500) / 1000
  }

  /** Blocks on top of (and including) the transaction's block; 0 while the
      transaction is unconfirmed. */
  function Confirmations(chainHeight: int, height: int): int {
    if height >= 0 then chainHeight - height + 1 else 0
  }

  /** `time`: the block timestamp when it is truthy, the clock otherwise. */
  function Time(blockTimestamp: Option<int>, nowMillis: int): int {
    if blockTimestamp.Some? && blockTimestamp.value != 0 then blockTimestamp.value
    else UnixSeconds(nowMillis)
  }

  /** The `vin` entry of the input at `index` of a non-coinbase transaction. */
  function TransformInput(options: TransformOptions, input: RawInput, index: nat): (v: Vin)
    ensures v.SpendVin? && v.n == index && v.valueSat == input.satoshis
    ensures v.txid == input.prevTxId && v.vout == input.outputIndex && v.sequence == input.sequence
    ensures v.addr == input.address
    ensures v.value * SatoshisPerBtc == input.satoshis as real
    ensures v.scriptSig.None? <==> options.noScriptSig
    ensures v.scriptSig.Some? ==> v.scriptSig.value.hex == input.script
    ensures v.scriptSig.Some? ==> v.scriptSig.value.asm == (if options.noAsm then None else input.scriptAsm)
    ensures v.doubleSpentTxId.None?
  {
    SpendVin(
      txid := input.prevTxId,
      vout := input.outputIndex,
      sequence := input.sequence,
      n := index,
      scriptSig := if options.noScriptSig then None
                   else Some(ScriptSig(input.script, if options.noAsm then None else input.scriptAsm)),
      addr := input.address,
      valueSat := input.satoshis,
      value := Btc(input.satoshis),
      doubleSpentTxId := None)
  }

  /** The spend-location fields: a falsy spent txid or height becomes `null`,
      a missing spent index becomes `null` (an index of 0 is kept). */
  function Spent(output: RawOutput): SpentFields {
    SpentFields(
      spentTxId := if Truthy(output.spentTxId) then output.spentTxId else None,
      spentIndex := output.spentIndex,
      spentHeight := if output.spentHeight.Some? && output.spentHeight.value != 0 then output.spentHeight else None)
  }

  /** The `vout` entry of the output at `index`, before enrichment. */
  function TransformOutput(c: Collaborators, options: TransformOptions, output: RawOutput, index: nat): (v: Vout)
    ensures v.n == index && v.value == c.formatBtc(output.satoshis) && v.scriptPubKey.hex == output.script
    ensures v.scriptPubKey.addresses.Some? <==> Truthy(output.address)
    ensures Truthy(output.address) ==> v.scriptPubKey.addresses.value == [output.address.value]
    ensures v.scriptPubKey.addressType.Some? <==> Truthy(output.address)
    ensures Truthy(output.address) ==> v.scriptPubKey.addressType.value == c.addressType(output.address.value)
    ensures v.scriptPubKey.asm == (if options.noAsm then None else output.scriptAsm)
    ensures v.spent.None? <==> options.noSpent
    ensures v.spent.Some? ==>
      && (Truthy(output.spentTxId) ==> v.spent.value.spentTxId == output.spentTxId)
      && (!Truthy(output.spentTxId) ==> v.spent.value.spentTxId.None?)
      && v.spent.value.spentIndex == output.spentIndex
      && (v.spent.value.spentHeight.None? <==> output.spentHeight.None? || output.spentHeight.value == 0)
      && (v.spent.value.spentHeight.Some? ==> v.spent.value.spentHeight == output.spentHeight)
    ensures v.metadata.None?
  {
    var hasAddress := Truthy(output.address);
    Vout(
      value := c.formatBtc(output.satoshis),
      n := index,
      scriptPubKey := ScriptPubKey(
        hex := output.script,
        asm := if options.noAsm then None else output.scriptAsm,
        addresses := if hasAddress then Some([output.address.value]) else None,
        addressType := if hasAddress then Some(c.addressType(output.address.value)) else None),
      spent := if options.noSpent then None else Some(Spent(output)),
      metadata := None)
  }

  /** The enriched `vout` entry of output `i`. */
  function VoutEntry(c: Collaborators, options: TransformOptions, outputs: seq<RawOutput>, i: nat): (v: Vout)
    requires i < |outputs|
    ensures v.n == i
  {
    TransformOutput(c, options, outputs[i], i).(metadata := Enrichment.Metadata(outputs, i, c.lookupAssets))
  }

  /** `vout`: every output's entry, at its own index. */
  function TransformVout(c: Collaborators, options: TransformOptions, outputs: seq<RawOutput>): (vout: seq<Vout>)
    ensures |vout| == |outputs|
    ensures forall i :: 0 <= i < |vout| ==> vout[i] == VoutEntry(c, options, outputs, i)
  {
    seq(|outputs|, i requires 0 <= i < |outputs| => VoutEntry(c, options, outputs, i))
  }

  /** `vin`: the synthetic coinbase entry, or one entry per input. */
  function TransformVin(options: TransformOptions, raw: RawTransaction): Result<seq<Vin>, TransformError> {
    if raw.coinbase then
      if |raw.inputs| == 0 then Failure(CoinbaseWithoutInputs)
      else Success([CoinbaseVin(raw.inputs[0].script, raw.inputs[0].sequence, 0)])
    else
      Success(seq(|raw.inputs|, i requires 0 <= i < |raw.inputs| => TransformInput(options, raw.inputs[i], i)))
  }

  /** The canonical view of `raw`. */
  function TransformTransaction(c: Collaborators, options: TransformOptions, raw: RawTransaction)
    : (r: Result<Transformed, TransformError>)
    ensures r.Failure? <==> raw.coinbase && |raw.inputs| == 0
    // identity fields
    ensures r.Success? ==>
      && r.value.txid == raw.hash && r.value.version == raw.version
      && r.value.locktime == raw.locktime && r.value.blockhash == raw.blockHash
      && r.value.blockheight == raw.height
    // vin
    ensures r.Success? && raw.coinbase ==>
      r.value.vin == [CoinbaseVin(raw.inputs[0].script, raw.inputs[0].sequence, 0)]
    ensures r.Success? && !raw.coinbase ==>
      && |r.value.vin| == |raw.inputs|
      && forall i :: 0 <= i < |raw.inputs| ==>
           && r.value.vin[i] == TransformInput(options, raw.inputs[i], i)
           && r.value.vin[i].SpendVin?
           && r.value.vin[i].n == i
           && r.value.vin[i].txid == raw.inputs[i].prevTxId
           && r.value.vin[i].vout == raw.inputs[i].outputIndex
           && r.value.vin[i].sequence == raw.inputs[i].sequence
           && r.value.vin[i].addr == raw.inputs[i].address
           && r.value.vin[i].valueSat == raw.inputs[i].satoshis
    // vout
    ensures r.Success? ==>
      && |r.value.vout| == |raw.outputs|
      && forall i :: 0 <= i < |raw.outputs| ==>
           && r.value.vout[i].n == i
           && r.value.vout[i].value == c.formatBtc(raw.outputs[i].satoshis)
           && r.value.vout[i].scriptPubKey.hex == raw.outputs[i].script
    // confirmations, time and blocktime
    ensures r.Success? && raw.height >= 0 ==> r.value.confirmations == c.chainHeight - raw.height + 1
    ensures r.Success? && raw.height < 0 ==> r.value.confirmations == 0
    ensures r.Success? && raw.blockTimestamp.Some? && raw.blockTimestamp.value != 0 ==>
      r.value.time == raw.blockTimestamp.value
    ensures r.Success? && !(raw.blockTimestamp.Some? && raw.blockTimestamp.value != 0) ==>
      r.value.time * 1000 - 500 <= c.nowMillis < r.value.time * 1000 + 500
    ensures r.Success? ==> (r.value.blocktime.Some? <==> r.value.confirmations != 0)
    ensures r.Success? && r.value.blocktime.Some? ==> r.value.blocktime.value == r.value.time
    // coinbase-dependent fields and amounts
    ensures r.Success? ==> r.value.isCoinBase == (if raw.coinbase then Some(true) else None)
    ensures r.Success? ==> (r.value.valueIn.Some? <==> !raw.coinbase) && (r.value.fees.Some? <==> !raw.coinbase)
    ensures r.Success? && !raw.coinbase ==>
      && r.value.valueIn.value * SatoshisPerBtc == raw.inputSatoshis as real
      && r.value.fees.value * SatoshisPerBtc == raw.feeSatoshis as real
    ensures r.Success? ==> r.value.valueOut * SatoshisPerBtc == raw.outputSatoshis as real
    ensures r.Success? ==> r.value.size * 2.0 == |raw.hex| as real
  {
    var vin :- TransformVin(options, raw);
    var confirmations := Confirmations(c.chainHeight, raw.height);
    var time := Time(raw.blockTimestamp, c.nowMillis);
    Success(Transformed(
      txid := raw.hash,
      version := raw.version,
      locktime := raw.locktime,
      vin := vin,
      vout := TransformVout(c, options, raw.outputs),
      blockhash := raw.blockHash,
      blockheight := raw.height,
      confirmations := confirmations,
      time := time,
      blocktime := if confirmations != 0 then Some(time) else None,
      isCoinBase := if raw.coinbase then Some(true) else None,
      valueOut := Btc(raw.outputSatoshis),
      size := |raw.hex| as real / 2.0,
      valueIn := if raw.coinbase then None else Some(Btc(raw.inputSatoshis)),
      fees := if raw.coinbase then None else Some(Btc(raw.feeSatoshis))))
  }
}

/** Properties of the transformer that relate several of its parts. */
module TransformProperties {
  import opened Wrappers
  import opened JsValues
  import opened Records
  import opened Transform

  /** Output `i` carries a `metadata` field exactly when it has no address and
      the output before it has one; the field then holds what the asset lookup
      returned for that preceding address. */
  lemma EnrichmentOfVout(c: Collaborators, options: TransformOptions, raw: RawTransaction, i: nat)
    requires TransformTransaction(c, options, raw).Success?
    requires i < |raw.outputs|
    ensures var v := TransformTransaction(c, options, raw).value.vout[i];
      && (v.metadata.Some? <==> i > 0 && !Truthy(raw.outputs[i].address) && Truthy(raw.outputs[i - 1].address))
      && (v.metadata.Some? ==> v.metadata.value == c.lookupAssets(raw.outputs[i - 1].address.value))
  {
  }

  /** The address-dependent and spend-location fields of output entry `i`
      of the transformed transaction. */
  lemma VoutFields(c: Collaborators, options: TransformOptions, raw: RawTransaction, i: nat)
    requires TransformTransaction(c, options, raw).Success?
    requires i < |raw.outputs|
    ensures var v := TransformTransaction(c, options, raw).value.vout[i]; var o := raw.outputs[i];
      && (v.scriptPubKey.addresses.Some? <==> Truthy(o.address))
      && (Truthy(o.address) ==> v.scriptPubKey.addresses.value == [o.address.value])
      && (v.scriptPubKey.addressType.Some? <==> Truthy(o.address))
      && (Truthy(o.address) ==> v.scriptPubKey.addressType.value == c.addressType(o.address.value))
      && v.scriptPubKey.asm == (if options.noAsm then None else o.scriptAsm)
      && (v.spent.None? <==> options.noSpent)
      && (v.spent.Some? ==>
            && (Truthy(o.spentTxId) ==> v.spent.value.spentTxId == o.spentTxId)
            && (!Truthy(o.spentTxId) ==> v.spent.value.spentTxId.None?)
            && v.spent.value.spentIndex == o.spentIndex
            && (v.spent.value.spentHeight.None? <==> o.spentHeight.None? || o.spentHeight.value == 0)
            && (v.spent.value.spentHeight.Some? ==> v.spent.value.spentHeight == o.spentHeight))
  {
  }

  // ---------------------------------------------------------------------------
  // Option flags strip their own fields and nothing else
  // ---------------------------------------------------------------------------

  /** The `vin` entry `v` with the fields the options suppress removed. */
  function StripVin(options: TransformOptions, v: Vin): Vin {
    match v
    case CoinbaseVin(_, _, _) => v
    case SpendVin(_, _, _, _, scriptSig, _, _, _, _) =>
      if options.noScriptSig then v.(scriptSig := None)
      else if options.noAsm && scriptSig.Some? then v.(scriptSig := Some(scriptSig.value.(asm := None)))
      else v
  }

  /** The `vout` entry `v` with the fields the options suppress removed. */
  function StripVout(options: TransformOptions, v: Vout): Vout {
    v.(scriptPubKey := if options.noAsm then v.scriptPubKey.(asm := None) else v.scriptPubKey,
       spent := if options.noSpent then None else v.spent)
  }

  /** Transforming with flags equals transforming with none and then removing
      exactly the flagged fields: `noScriptSig` drops `scriptSig`, `noAsm`
      drops the two `asm` fields, `noSpent` drops the spend-location fields,
      and every other field, entry count and entry order is unchanged. */
  lemma FlagsStripOnlyTheirFields(c: Collaborators, options: TransformOptions, raw: RawTransaction)
    ensures var full := TransformTransaction(c, DefaultOptions, raw);
      var r := TransformTransaction(c, options, raw);
      && (r.Success? <==> full.Success?)
      && (r.Success? ==>
            && |r.value.vin| == |full.value.vin|
            && |r.value.vout| == |full.value.vout|
            && (forall i :: 0 <= i < |r.value.vin| ==> r.value.vin[i] == StripVin(options, full.value.vin[i]))
            && (forall i :: 0 <= i < |r.value.vout| ==> r.value.vout[i] == StripVout(options, full.value.vout[i]))
            && r.value.(vin := [], vout := []) == full.value.(vin := [], vout := []))
  {
  }

  // ---------------------------------------------------------------------------
  // Output order does not depend on the order lookups complete in
  // ---------------------------------------------------------------------------

  /** Output entries are produced concurrently; `order` lists the indices in
      the order their entries complete (every index at least once), and each
      completed entry is stored in the slot of its own index. The collected
      `vout` is the same whatever the completion order. */
  method CollectVout(c: Collaborators, options: TransformOptions, outputs: seq<RawOutput>, order: seq<nat>)
    returns (vout: seq<Vout>)
    requires forall k :: 0 <= k < |order| ==> order[k] < |outputs|
    requires forall i :: 0 <= i < |outputs| ==> i in order
    ensures vout == TransformVout(c, options, outputs)
  {
    var slots: seq<Option<Vout>> := seq(|outputs|, _ => None);
    var k := 0;
    while k < |order|
      invariant 0 <= k <= |order|
      invariant |slots| == |outputs|
      invariant forall j :: 0 <= j < k ==> slots[order[j]].Some?
      invariant forall i :: 0 <= i < |slots| && slots[i].Some? ==> slots[i].value == VoutEntry(c, options, outputs, i)
    {
      var index := order[k];
      slots := slots[index := Some(VoutEntry(c, options, outputs, index))];
      k := k + 1;
    }
    assert forall i :: 0 <= i < |outputs| ==> slots[i].Some? by {
      forall i | 0 <= i < |outputs| ensures slots[i].Some? {
        assert i in order;
        var j :| 0 <= j < |order| && order[j] == i;
      }
    }
    vout := seq(|outputs|, i requires 0 <= i < |outputs| && slots[i].Some? => slots[i].value);
  }
}

=== FILE: wrappers.dfy ===
/** Failure-compatible wrappers shared by the whole model. */
module Wrappers {

  /** An optional value; `None` stands for a JavaScript `undefined`/`null`
      (an absent field, or a field whose value is null). */
  datatype Option<+T> = None | Some(value: T) {

    /** Returns the value held in `Some`, or `default` for `None`. */
    function GetOr(default: T): T
    {
      match this
      case Some(v) => v
      case None => default
    }
  }

  /** A computation that either succeeds with a value or fails with an error. */
  datatype Result<+R, +E> = Success(value: R) | Failure(error: E) {

    predicate IsFailure() {
      Failure?
    }

    function PropagateFailure<U>(): Result<U, E>
      requires Failure?
    {
      Failure(error)
    }

    function Extract(): R
      requires Success?
    {
      value
    }
  }
}
